=== FILE: README.md ===
# Movie catalog server: catalog and upload core

This project models the part of the movie and series catalog server
(`server.js`) that decides which files exist and which entries the catalog
file holds:

- the multer disk-storage callbacks: which upload directory a part goes to,
  and how the stored file name is generated;
- `readMovies` / `saveMovies` over `data/movies.json`;
- the body of `POST /api/movies`, which builds one catalog entry from the form
  fields and the stored parts (the first image, the first video, or the
  episode list sorted by number) and appends it;
- the body of `DELETE /api/movies/:id`, which finds the entry and removes the
  files it references under `/uploads`. It then drops every entry with that
  id and saves.

The JavaScript and Node built-ins this code relies on are modelled in their
own modules:

- `Js`: `Array.prototype.find` and `filter`, `String.prototype.startsWith`,
  `split` on one character, the global `parseInt`, and `String(n)` for a
  natural number;
- `NodePath`: the POSIX `path.extname`.

The server state is a `Catalog.State`: the catalog file (a list of entries,
or `None` when the file is missing or unparsable) and the set of files on
disk, each named by the URL it is served under. The clock (`Date.now()`),
the random number (`Math.round(Math.random() * 1E9)`) and the outcome of the
file write in `saveMovies` are parameters of the operations.

Modules, in dependency order:

- `wrappers.dfy`: `Option`;
- `js.dfy`, `nodepath.dfy`: the built-ins;
- `upload.dfy`: the multer storage and the upload stage;
- `catalog.dfy`: entries and the catalog file;
- `builder.dfy`: the create request;
- `deletion.dfy`: the delete request;
- `lifecycle.dfy`: properties that tie create and delete together.

Three behaviours of the code that are easy to misread, and that the model
keeps:

- A part whose field name is neither `video`, `image` nor `episode_*` is not
  dropped. The `destination` callback (server.js:22-28) never calls its
  callback for such a part, so the request never reaches the handler. The
  model has the upload stop there (`Upload.StoreUploads` with
  `complete == false`) and the request end as
  `Builder.CreateResponse.Pending`. The parts already written stay on disk,
  and the catalog is untouched.
- Both handlers answer `success: true` whatever `saveMovies` returned
  (server.js:110-112, 152-154). `Builder.Create` and `Deletion.Delete` do
  the same; the write outcome only changes the catalog file.
- The delete handler tests `movie.episodes` for truthiness (server.js:135).
  A series with an empty `episodes` list therefore removes no `videoUrl`,
  even when it has one. `Deletion.Targets` states this.

## Model

| member | source | states |
|---|---|---|
| Upload.Destination | server.js:22-28 | `video` and `episode_*` parts go to the movies directory and `image` parts to the images directory. Every other field name gets no destination. Each case is stated in both directions. |
| Upload.StoredName | server.js:29-32 | The generated name starts with a digit and has no `/`, so the file lands directly in its directory. |
| Upload.StoredNameDecodes | server.js:30 | Splitting the generated name on `-` and reading the first two pieces with `parseInt` gives back the clock reading and the random number. |
| Upload.StoredNameKeepsExt | server.js:30 | The generated name has the same `path.extname` as the client's original file name. |
| Upload.StorePart | server.js:21-33 | A part is stored exactly when its field name has a destination. The stored record keeps the field and original names, in the chosen directory, under the generated name. |
| Upload.StoreUploads | server.js:21-33 | With every disk write succeeding, the upload completes exactly when every part has a destination, and then stores one file per part, in order. Otherwise it stops at the first part without one, after storing every part before it. |
| Upload.StoredInOwnBucket | server.js:22-28 | Every stored file sits in the directory its field name selects. |
| NodePath.ExtName | server.js:30 | The extension is empty or starts with `.`. It contains no `/` and no second `.`. |
| NodePath.ExtNameOfName | server.js:30 | `extname("dir/stem.ext")` is `.ext` for any non-empty stem other than a lone `.` with an empty extension. |
| NodePath.ExtNameNoDot | server.js:30 | A last component without a dot has no extension. |
| NodePath.ExtNameDotFile | server.js:30 | A hidden file such as `.profile` has no extension. |
| Js.ParseIntDecimal | server.js:95 | `parseInt` reads back the decimal numeral of any natural number. This holds also when a non-digit follows, except for `0` followed by `x`/`X`. |
| Js.ParseIntLeadingZero | server.js:95 | A leading zero does not switch `parseInt` to another base: `"0"` followed by the numeral of `n` reads as `n`. |
| Js.ParseIntNoDigits | server.js:121 | Text containing no decimal digit parses to NaN. |
| Js.Split | server.js:93 | `split` on one character gives at least one piece, no piece contains the separator, and text that contains the separator gives at least two pieces. |
| Js.Decimal | server.js:30 | `String(n)` of a natural number is a non-empty run of decimal digits, with a leading `0` only for zero. |
| Js.ParseInt | server.js:95 | A number needs text after the leading white space, and a negative number needs a minus sign there. |
| Js.SplitJoin | server.js:93 | Joining the pieces of `split` with the separator gives back the input, so no character is lost. |
| Js.Find | server.js:123 | `find` answers nothing exactly when no element matches. Otherwise it answers the first matching element. |
| Js.Filter | server.js:151 | `filter` keeps only elements that pass the test and never grows the list. |
| Js.FilterCounts | server.js:151 | `filter` keeps every passing element as often as it occurs and drops every failing one. |
| Catalog.ReadMovies | server.js:46-56 | A missing or unparsable catalog file reads as the empty list. Otherwise the stored list is read. |
| Catalog.SaveMovies | server.js:58-66 | The save reports success exactly when the write succeeds, and then reading gives back the saved list. A write that fails before opening leaves the old file. One that fails after truncating leaves a file that reads as empty. |
| Builder.EpisodeOf | server.js:93-98 | The episode's URL is the part's movie URL. Its title is the episode word followed by the piece of the field name after `episode_`, up to the next `_` or the end. Its number is that piece read with `parseInt`. |
| Builder.CollectEpisodes | server.js:90-100 | There is one episode per `episode_*` part, in the order of the parts, each built from its own part. |
| Builder.EpisodeOfNumeral | server.js:92-98 | A part named `episode_<n>` (optionally followed by `_...`) gives episode number `n`. Its title is the episode word plus the numeral, and its URL is the part's movie URL. |
| Builder.EpisodeOfPadded | server.js:93-97 | A zero-padded name such as `episode_01` gives the numeral's value as number (1) and keeps the padded text (`01`) in the title. |
| Builder.InsertCounts | server.js:101 | Inserting an episode into a list adds exactly that episode. |
| Builder.SortEpisodes | server.js:101 | The sort is a permutation of the episodes. |
| Builder.SortEpisodesSorted | server.js:101 | When every episode number parsed, the sorted list ascends by number. |
| Builder.SortEpisodesStable | server.js:101 | Episodes that share a number keep their relative order. |
| Builder.FirstUrl | server.js:78-106 | The URL is that of the first part with the given field name, or empty when no part has it. |
| Builder.BuildItem | server.js:78-107 | The entry has the clock reading as id and copies title and category. A missing or empty type becomes `movie`. The image is the URL of the first `image` part, or empty when there is none. A series gets an episode list and nothing else gets one. Every non-series gets a video URL: the movie URL of the first `video` part, or empty when there is none. The episode list is the collected episodes sorted by number, so it is a permutation of them, sorted when every number parsed and stable for equal numbers. |
| Builder.Create | server.js:73-112 | With every part written successfully, the request adds exactly the files the upload wrote. It answers `Created` exactly when every part had a destination, and otherwise leaves the catalog alone. The answered entry is the one built from the form fields and the stored parts, with the clock reading as id. A successful save makes the catalog the old list plus the new entry. A save failing before opening leaves the catalog file unchanged. |
| Builder.CreateAppendsOnly | server.js:109-110 | A successful create keeps every earlier entry in place and puts the new entry last. |
| Deletion.Candidates | server.js:127-149 | The references the handler inspects start with the image. For a series with an `episodes` list they include every episode URL. For any other entry, including a series without an `episodes` list, they include the `videoUrl` when there is one. Every non-empty candidate is one of the entry's references. |
| Deletion.Targets | server.js:127-149 | The files a delete removes are references of the entry, each non-empty and under `/uploads`. For a series with an `episodes` list they are exactly the qualifying image and episode URLs, and its `videoUrl` is kept. For any other entry they are exactly the qualifying image and `videoUrl`. |
| Deletion.Reconcile | server.js:125-149 | Removing the references one by one, skipping missing files, leaves exactly the original files minus the entry's targets. The targets are its non-empty `/uploads` references: the image, then the episodes of a series or else the video. |
| Deletion.Delete | server.js:119-157 | The answer is NotFound exactly when no entry has the parsed id (NaN matches none), and then nothing changes. Otherwise the files of the first entry with that id are removed. A successful save leaves exactly the entries with other ids. |
| Deletion.RemoveIdKeepsOthers | server.js:151 | Dropping one id keeps every other id's entries, in their order. |
| Deletion.DeleteUnknownChangesNothing | server.js:121-125 | Deleting a numeric id that no entry has changes neither the catalog nor the files. |
| Deletion.DeleteAgainNotFound | server.js:121-157 | Repeating a delete is answered NotFound and changes nothing, unless the first save failed before opening the file. |
| Deletion.DeleteAgainKeepsFiles | server.js:125-152 | Repeating a delete never removes further files, whatever either save did. |
| Deletion.DeleteAppended | server.js:121-152 | Deleting, by its decimal id, an entry appended after entries with other ids removes exactly its targets and restores the earlier list. |
| Lifecycle.BuiltReferencesStored | server.js:78-107 | Every file reference of a built entry is a path the upload wrote. |
| Lifecycle.CreatedReferencesExist | server.js:73-112 | After a create, every file the new entry refers to exists. |
| Lifecycle.BuiltTargetsAreReferences | server.js:127-149 | Deleting a built entry targets exactly the files it refers to. |
| Lifecycle.CreateThenDelete | server.js:80-152 | A create followed by a delete of the new id, both saves succeeding and the id not used before: the delete finds the entry, removes exactly its files, and restores the catalog from before the create. |

## Left out

- Express, multer, cors and static-file wiring, the directory creation at start-up, `GET /api/movies`, `getLocalIP` and the start-up banner: they are plumbing around the core and hold no logic of their own.
- HTTP status codes, response bodies and the `catch` branches that answer 500: the model distinguishes only `Created`/`Pending` and `Deleted`/`NotFound`.
- JSON serialisation: the catalog file is an abstract value. The model does not cover entries of other shapes, fields of non-string type, or a body field sent twice (multer then yields an array).
- The upload size limit of 2000 MiB: file contents are not modelled.
- Concurrency: two requests that read and save the catalog at once can lose an entry. The model treats each request as atomic.
- Upload.StoreUploads: every part's disk write is assumed to succeed. A failed write (disk full, no permission) makes multer remove the parts already written and pass the error on, so the handler never runs; the model has no such outcome.
- Builder.Create: assumes every part's disk write succeeds, so `Created` and the file-set equation hold only then. On a failed part write the request ends with an error before the handler runs, the written parts are removed and the catalog is untouched.
- Upload.StoreUploads: parts after a stalled part are never written in the model. The multipart parser may in fact read past a stalled part small enough to fit its buffer, so later parts can still reach disk.
- Upload.StoredName: no uniqueness claim. The clock and the random number are parameters, and two parts with the same readings get the same name; the range 0 to 10^9 of the random number is not enforced.
- Catalog.ReadMovies: the console logging of a read or parse error is left out.
- Catalog.SaveMovies: console logging of the error is left out.
- Deletion.Reconcile: `path.join` normalisation is not modelled. A file is identified by its URL, and a reference that qualifies by its `/uploads` prefix is removed under that name.
- Deletion.Delete: does not model an error thrown by `unlinkSync` (a directory, missing permissions), which would end the request before the catalog is saved.
- Builder.SortEpisodesSorted: sortedness is proved only when every episode number parsed. With a NaN number the comparator is inconsistent and the order `Array.prototype.sort` produces is implementation-defined; the model's stable insertion sort is one admissible order.
- Js.ParseInt: numbers are unbounded, so precision loss above 2^53 is not modelled. `-0` is the same as `0`.
- Js.Decimal: models `String(n)` for naturals only. Numbers from 10^21 up, which JavaScript prints in exponent notation, are not modelled.
- Strings are sequences of Unicode characters rather than UTF-16 code units. This only matters for characters outside the Basic Multilingual Plane.

=== FILE: builder.dfy ===
/** The body of `POST /api/movies`: build one entry from the form fields and
    the stored parts, append it to the catalog and save. */
module Builder {
  import opened Wrappers
  import opened Js
  import opened Upload
  import opened Catalog

  /** The text fields of the form (`req.body`); `None` is a missing field. */
  datatype Fields = Fields(title: Option<string>, category: Option<string>, itemType: Option<string>)

  /** The fixed word in front of an episode's title ("episode" in Arabic). */
  const EpisodeTitlePrefix: string := "الحلقة "

  /** `f => f.fieldname === name`. */
  function FieldIs(name: string): StoredFile -> bool {
    (f: StoredFile) => f.fieldName == name
  }

  predicate IsEpisodePart(f: StoredFile) {
    IsEpisodeField(f.fieldName)
  }

  /** The URLs the handler writes for stored parts. */
  function ImageUrl(fileName: string): string {
    "/uploads/images/" + fileName
  }

  function MovieUrl(fileName: string): string {
    "/uploads/movies/" + fileName
  }

  /** `fieldName.split('_')[1]`: for `episode_<n>` the text after the first
      `_`, up to the next `_` if there is one. */
  function EpisodeSuffix(fieldName: string): (n: string)
    requires IsEpisodeField(fieldName)
    ensures '_' !in n
    ensures |EpisodeFieldPrefix| + |n| <= |fieldName| && fieldName[|EpisodeFieldPrefix|..|EpisodeFieldPrefix| + |n|] == n
    ensures |EpisodeFieldPrefix| + |n| < |fieldName| ==> fieldName[|EpisodeFieldPrefix| + |n|] == '_'
  {
    var x := fieldName[|EpisodeFieldPrefix|..];
    assert fieldName == "episode" + (['_'] + x) by {
      assert fieldName[..|EpisodeFieldPrefix|] == EpisodeFieldPrefix;
    }
    SecondPieceOfTail("episode", x, '_');
    FirstPieceIsPrefix(x, '_');
    Split(fieldName, '_')[1]
  }

  /** The episode's title is the episode word followed by the field name's
      piece after the first `_` (up to the next `_`), and its number is that
      piece read with `parseInt`. */
  predicate NamedAfterField(ep: Episode, fieldName: string) {
    && |EpisodeTitlePrefix| <= |ep.title| && ep.title[..|EpisodeTitlePrefix|] == EpisodeTitlePrefix
    && var n := ep.title[|EpisodeTitlePrefix|..];
    var k := |EpisodeFieldPrefix|;
    && '_' !in n
    && k + |n| <= |fieldName| && fieldName[..k] == EpisodeFieldPrefix && fieldName[k..k + |n|] == n
    && (k + |n| < |fieldName| ==> fieldName[k + |n|] == '_')
    && ep.number == ParseInt(n)
  }

  /** The episode the handler records for one `episode_*` part. */
  function EpisodeOf(f: StoredFile): (ep: Episode)
    requires IsEpisodePart(f)
    ensures ep.url == MovieUrl(f.fileName)
    ensures NamedAfterField(ep, f.fieldName)
  {
    var n := EpisodeSuffix(f.fieldName);
    SuffixNamesEpisode(f.fieldName, MovieUrl(f.fileName));
    Episode(ParseInt(n), MovieUrl(f.fileName), EpisodeTitlePrefix + n)
  }

  lemma SuffixNamesEpisode(fieldName: string, url: string)
    requires IsEpisodeField(fieldName)
    ensures var n := EpisodeSuffix(fieldName);
      NamedAfterField(Episode(ParseInt(n), url, EpisodeTitlePrefix + n), fieldName)
  {
    var n := EpisodeSuffix(fieldName);
    var title := EpisodeTitlePrefix + n;
    assert title[..|EpisodeTitlePrefix|] == EpisodeTitlePrefix;
    assert title[|EpisodeTitlePrefix|..] == n;
    assert fieldName[..|EpisodeFieldPrefix|] == EpisodeFieldPrefix;
  }

  /** The `forEach` over `req.files`: one episode per `episode_*` part, in
      the order of the parts; every other part is skipped. */
  function CollectEpisodes(files: seq<StoredFile>): (eps: seq<Episode>)
    ensures |eps| == |Filter(files, IsEpisodePart)|
    ensures forall i :: 0 <= i < |eps| ==> eps[i] == EpisodeOf(Filter(files, IsEpisodePart)[i])
  {
    if |files| == 0 then []
    else
      var rest := CollectEpisodes(files[1..]);
      var parts := Filter(files[1..], IsEpisodePart);
      if IsEpisodePart(files[0]) then
        assert Filter(files, IsEpisodePart) == [files[0]] + parts;
        EpisodesCons(files[0], parts, rest);
        [EpisodeOf(files[0])] + rest
      else
        assert Filter(files, IsEpisodePart) == parts;
        rest
  }

  /** Recording one more `episode_*` part in front keeps the list in step
      with the parts. */
  lemma EpisodesCons(f: StoredFile, parts: seq<StoredFile>, eps: seq<Episode>)
    requires IsEpisodePart(f)
    requires |eps| == |parts|
    requires forall i :: 0 <= i < |parts| ==> IsEpisodePart(parts[i]) && eps[i] == EpisodeOf(parts[i])
    ensures var q := [f] + parts;
      forall i :: 0 <= i < |q| ==> IsEpisodePart(q[i]) && ([EpisodeOf(f)] + eps)[i] == EpisodeOf(q[i])
  {
    var q := [f] + parts;
    forall i | 0 <= i < |q|
      ensures IsEpisodePart(q[i]) && ([EpisodeOf(f)] + eps)[i] == EpisodeOf(q[i])
    {
      if i > 0 {
        assert q[i] == parts[i - 1];
      }
    }
  }

  // ---------------------------------------------------------------------
  // Sorting the episodes by number
  // ---------------------------------------------------------------------

  /** The comparator says `a` goes strictly before `b` when `a.number - b.number`
      is negative; a NaN number compares as neither before nor after. */
  predicate Before(a: Episode, b: Episode) {
    a.number.Some? && b.number.Some? && a.number.value < b.number.value
  }

  /** Places `e` in front of the first element that does not go strictly
      before it. */
  function Insert(e: Episode, s: seq<Episode>): (r: seq<Episode>)
    ensures |r| == |s| + 1
  {
    if |s| == 0 then [e]
    else if Before(s[0], e) then [s[0]] + Insert(e, s[1..])
    else [e] + s
  }

  lemma {:induction false} InsertCounts(e: Episode, s: seq<Episode>)
    ensures multiset(Insert(e, s)) == multiset(s) + multiset{e}
  {
    if |s| > 0 && Before(s[0], e) {
      InsertCounts(e, s[1..]);
      assert s == [s[0]] + s[1..];
    }
  }

  /** A stable sort by episode number (insertion sort from the back, which
      keeps equal numbers in their original order). */
  function SortEpisodes(s: seq<Episode>): (r: seq<Episode>)
    ensures multiset(r) == multiset(s)
  {
    if |s| == 0 then []
    else
      assert s == [s[0]] + s[1..];
      InsertCounts(s[0], SortEpisodes(s[1..]));
      Insert(s[0], SortEpisodes(s[1..]))
  }

  predicate Numbered(s: seq<Episode>) {
    forall i :: 0 <= i < |s| ==> s[i].number.Some?
  }

  predicate SortedByNumber(s: seq<Episode>)
    requires Numbered(s)
  {
    forall i, j :: 0 <= i < j < |s| ==> s[i].number.value <= s[j].number.value
  }

  /** Every episode of `s` has a number of at least `x`. */
  predicate AllFrom(x: int, s: seq<Episode>) {
    forall i :: 0 <= i < |s| ==> s[i].number.Some? && x <= s[i].number.value
  }

  lemma {:induction false} InsertAllFrom(x: int, e: Episode, s: seq<Episode>)
    requires AllFrom(x, s) && e.number.Some? && x <= e.number.value
    ensures AllFrom(x, Insert(e, s))
  {
    if |s| > 0 && Before(s[0], e) {
      InsertAllFrom(x, e, s[1..]);
      assert Insert(e, s) == [s[0]] + Insert(e, s[1..]);
    }
  }

  lemma {:induction false} InsertSorted(e: Episode, s: seq<Episode>)
    requires Numbered(s) && e.number.Some? && SortedByNumber(s)
    ensures Numbered(Insert(e, s)) && SortedByNumber(Insert(e, s))
  {
    if |s| > 0 && Before(s[0], e) {
      InsertSorted(e, s[1..]);
      var t := Insert(e, s[1..]);
      assert AllFrom(s[0].number.value, s[1..]);
      InsertAllFrom(s[0].number.value, e, s[1..]);
      assert Insert(e, s) == [s[0]] + t;
    }
  }

  /** When every number parsed, the sorted episodes ascend by number. */
  lemma {:induction false} SortEpisodesSorted(s: seq<Episode>)
    ensures Numbered(s) ==> Numbered(SortEpisodes(s)) && SortedByNumber(SortEpisodes(s))
  {
    if |s| > 0 && Numbered(s) {
      SortEpisodesSorted(s[1..]);
      InsertSorted(s[0], SortEpisodes(s[1..]));
    }
  }

  /** `e => e.number === k`. */
  function NumberIs(k: Option<int>): Episode -> bool {
    (e: Episode) => e.number == k
  }

  lemma {:induction false} InsertKeepsTies(e: Episode, s: seq<Episode>, k: Option<int>)
    ensures Filter(Insert(e, s), NumberIs(k))
         == (if e.number == k then [e] else []) + Filter(s, NumberIs(k))
  {
    var p := NumberIs(k);
    if |s| > 0 && Before(s[0], e) {
      var t := Insert(e, s[1..]);
      InsertKeepsTies(e, s[1..], k);
      assert ([s[0]] + t)[0] == s[0] && ([s[0]] + t)[1..] == t;
      assert Filter(Insert(e, s), p) == (if p(s[0]) then [s[0]] else []) + Filter(t, p);
      assert Filter(s, p) == (if p(s[0]) then [s[0]] else []) + Filter(s[1..], p);
    } else if |s| > 0 {
      assert ([e] + s)[0] == e && ([e] + s)[1..] == s;
    }
  }

  /** The sort is stable: the episodes sharing a number keep their relative
      order (and none is lost or duplicated). */
  lemma {:induction false} SortEpisodesStable(s: seq<Episode>, k: Option<int>)
    ensures Filter(SortEpisodes(s), NumberIs(k)) == Filter(s, NumberIs(k))
  {
    if |s| > 0 {
      SortEpisodesStable(s[1..], k);
      InsertKeepsTies(s[0], SortEpisodes(s[1..]), k);
    }
  }

  // ---------------------------------------------------------------------
  // The entry
  // ---------------------------------------------------------------------

  /** `u` is the URL of the first part named `name`, or empty when no part
      has that name. */
  predicate FirstPartUrl(u: string, files: seq<StoredFile>, name: string, url: string -> string) {
    || ((forall i :: 0 <= i < |files| ==> files[i].fieldName != name) && u == "")
    || exists i :: 0 <= i < |files| && files[i].fieldName == name && u == url(files[i].fileName)
         && forall j :: 0 <= j < i ==> files[j].fieldName != name
  }

  /** `find` by field name, as a URL, or empty when no part matches. */
  function FirstUrl(files: seq<StoredFile>, name: string, url: string -> string): (u: string)
    ensures FirstPartUrl(u, files, name, url)
  {
    match Find(files, FieldIs(name))
    case Some(f) => url(f.fileName)
    case None => ""
  }

  /** The `newItem` object the handler builds at clock reading `now`. */
  function BuildItem(fields: Fields, files: seq<StoredFile>, now: nat): (e: Entry)
    ensures e.id == now
    ensures e.title == fields.title && e.category == fields.category
    ensures e.itemType == if fields.itemType.None? || fields.itemType == Some("") then DefaultType else fields.itemType.value
    ensures FirstPartUrl(e.image, files, "image", ImageUrl)
    // exactly one of the two branches, decided by the stored type alone
    ensures e.episodes.Some? <==> e.itemType == SeriesType
    ensures e.videoUrl.Some? <==> e.itemType != SeriesType
    ensures e.itemType != SeriesType ==> e.videoUrl.Some? && FirstPartUrl(e.videoUrl.value, files, "video", MovieUrl)
    ensures e.episodes.Some? ==> e.episodes.value == SortEpisodes(CollectEpisodes(files))
    ensures e.episodes.Some? ==> multiset(e.episodes.value) == multiset(CollectEpisodes(files))
    ensures e.episodes.Some? && Numbered(CollectEpisodes(files))
            ==> Numbered(e.episodes.value) && SortedByNumber(e.episodes.value)
  {
    var itemType := if fields.itemType.None? || fields.itemType == Some("") then DefaultType else fields.itemType.value;
    var image := FirstUrl(files, "image", ImageUrl);
    if fields.itemType == Some(SeriesType) then
      var eps := CollectEpisodes(files);
      SortEpisodesSorted(eps);
      Entry(now, fields.title, fields.category, itemType, image, None, Some(SortEpisodes(eps)))
    else
      Entry(now, fields.title, fields.category, itemType, image, Some(FirstUrl(files, "video", MovieUrl)), None)
  }

  /** A part named `episode_<n>` (optionally followed by `_...`) yields
      episode number `n`, titled with the numeral as written. */
  lemma EpisodeOfNumeral(f: StoredFile, n: nat, rest: string)
    requires f.fieldName == "episode_" + Decimal(n) + rest
    requires rest == [] || rest[0] == '_'
    ensures IsEpisodePart(f)
    ensures EpisodeOf(f).number == Some(n)
    ensures EpisodeOf(f).title == EpisodeTitlePrefix + Decimal(n)
    ensures EpisodeOf(f).url == MovieUrl(f.fileName)
  {
    assert f.fieldName[..8] == "episode_";
    DecimalExcludes(n, '_');
    assert f.fieldName == "episode" + [('_')] + Decimal(n) + rest;
    SecondPiece("episode", Decimal(n), rest, '_');
    assert Decimal(n) + [] == Decimal(n);
    ParseIntDecimal(n, []);
  }

  /** A zero-padded numeral reads as its value and stays in the title as
      written: `episode_01` is episode 1, titled with `01`. */
  lemma EpisodeOfPadded(f: StoredFile, n: nat, rest: string)
    requires f.fieldName == "episode_" + ("0" + Decimal(n)) + rest
    requires rest == [] || rest[0] == '_'
    ensures IsEpisodePart(f)
    ensures EpisodeOf(f).number == Some(n)
    ensures EpisodeOf(f).title == EpisodeTitlePrefix + ("0" + Decimal(n))
  {
    var d := "0" + Decimal(n);
    assert f.fieldName[..8] == "episode_";
    DecimalExcludes(n, '_');
    assert '_' !in d;
    assert f.fieldName == "episode" + [('_')] + d + rest;
    SecondPiece("episode", d, rest, '_');
    ParseIntLeadingZero(n);
  }

  // ---------------------------------------------------------------------
  // POST /api/movies
  // ---------------------------------------------------------------------

  /** What the client gets back: nothing while the upload stalls, otherwise
      `{ success: true, item }` whatever `saveMovies` answered. */
  datatype CreateResponse = Pending | Created(item: Entry)

  datatype CreateOutcome = CreateOutcome(state: State, response: CreateResponse)

  /** The whole create request: the upload stage, then the handler body at
      clock reading `now`, saving with the given write outcome. */
  function Create(st: State, fields: Fields, arrivals: seq<Arrival>, now: nat, fault: WriteFault): (o: CreateOutcome)
    ensures o.state.files == st.files + WrittenPaths(StoreUploads(arrivals).stored)
    ensures o.response.Created? <==> Routable(arrivals)
    ensures o.response.Pending? ==> o.state.store == st.store
    ensures o.response.Created? ==> o.response.item == BuildItem(fields, StoreUploads(arrivals).stored, now)
    // follows from the clause above and BuildItem's contract; kept for readers
    ensures o.response.Created? ==> o.response.item.id == now
    ensures o.response.Created? && fault == NoFault
            ==> ReadMovies(o.state.store) == ReadMovies(st.store) + [o.response.item]
    ensures o.response.Created? && fault == OpenFault ==> o.state.store == st.store
  {
    var u := StoreUploads(arrivals);
    var files := st.files + WrittenPaths(u.stored);
    if !u.complete then CreateOutcome(State(st.store, files), Pending)
    else
      var item := BuildItem(fields, u.stored, now);
      var saved := SaveMovies(st.store, ReadMovies(st.store) + [item], fault);
      CreateOutcome(State(saved.store, files), Created(item))
  }

  /** Create only ever appends: the earlier entries keep their places and
      values, and the new entry is last. */
  lemma CreateAppendsOnly(st: State, fields: Fields, arrivals: seq<Arrival>, now: nat)
    requires Routable(arrivals)
    ensures var before := ReadMovies(st.store);
      var after := ReadMovies(Create(st, fields, arrivals, now, NoFault).state.store);
      && |after| == |before| + 1
      && after[..|before|] == before
      && after[|before|] == Create(st, fields, arrivals, now, NoFault).response.item
  {
    var before := ReadMovies(st.store);
    var after := ReadMovies(Create(st, fields, arrivals, now, NoFault).state.store);
    assert after == before + [Create(st, fields, arrivals, now, NoFault).response.item];
    assert after[..|before|] == before;
  }
}

=== FILE: catalog.dfy ===
/** The catalog entries and the repository that keeps them in
    `data/movies.json` (`readMovies` / `saveMovies`). JSON is not modelled:
    the file's contents are an abstract value. */
module Catalog {
  import opened Wrappers

  /** The `type` a missing or empty type field defaults to, and the one
      type that selects the episode list. */
  const DefaultType: string := "movie"
  const SeriesType: string := "series"

  /** One episode of a series; `number` is `None` where `parseInt` gave NaN. */
  datatype Episode = Episode(number: Option<int>, url: string, title: string)

  /** One catalog record as stored. `itemType` is the stored `type` string,
      whatever it is; `image` is the empty string when there is none (an
      absent field reads the same way); `videoUrl` and `episodes` are either
      absent or present, independently of each other. */
  datatype Entry = Entry(
    id: int,
    title: Option<string>,
    category: Option<string>,
    itemType: string,
    image: string,
    videoUrl: Option<string>,
    episodes: Option<seq<Episode>>)

  /** The catalog file: a list of entries, or `None` when the file is
      missing or does not parse. */
  type Store = Option<seq<Entry>>

  /** How `fs.writeFileSync` may end: it succeeds; it fails before the file is
      opened for writing (the old file stays); or it fails after truncating
      the file, leaving text that no longer parses. */
  datatype WriteFault = NoFault | OpenFault | PartialWriteFault

  /** The server's persistent state: the catalog file and the set of files
      under the application directory, each named by the path it is served
      under (`/uploads/movies/...`). */
  datatype State = State(store: Store, files: set<string>)

  /** `readMovies()`: the stored list, or `[]` when the file is missing or
      unparsable; it never fails. */
  function ReadMovies(store: Store): (ms: seq<Entry>)
    ensures store.None? ==> ms == []
    ensures store.Some? ==> ms == store.value
  {
    store.GetOr([])
  }

  /** The outcome of `saveMovies(movies)`: the new file and the returned flag. */
  datatype Saved = Saved(store: Store, ok: bool)

  /** `saveMovies(movies)`: replaces the whole file and answers `true`, or
      answers `false` without raising when the write fails. */
  function SaveMovies(store: Store, movies: seq<Entry>, fault: WriteFault): (r: Saved)
    ensures r.ok <==> fault == NoFault
    ensures r.ok ==> ReadMovies(r.store) == movies
    ensures fault == OpenFault ==> r.store == store
    ensures fault == PartialWriteFault ==> ReadMovies(r.store) == []
  {
    match fault
    case NoFault => Saved(Some(movies), true)
    case OpenFault => Saved(store, false)
    case PartialWriteFault => Saved(None, false)
  }

  /** The URLs of a list of episodes, in order. */
  function EpisodeUrls(eps: seq<Episode>): (urls: seq<string>)
    ensures |urls| == |eps|
    ensures forall i :: 0 <= i < |eps| ==> urls[i] == eps[i].url
  {
    seq(|eps|, i requires 0 <= i < |eps| => eps[i].url)
  }

  /** Every non-empty file reference an entry holds. */
  function References(e: Entry): set<string> {
    (if e.image != "" then {e.image} else {})
    + (if e.videoUrl.Some? && e.videoUrl.value != "" then {e.videoUrl.value} else {})
    + (if e.episodes.Some? then set u | u in EpisodeUrls(e.episodes.value) && u != "" else {})
  }

  /** `m => m.id === id` and `m => m.id !== id`. */
  function HasId(id: int): Entry -> bool {
    (m: Entry) => m.id == id
  }

  function OtherId(id: int): Entry -> bool {
    (m: Entry) => m.id != id
  }
}

=== FILE: deletion.dfy ===
/** The body of `DELETE /api/movies/:id`: find the entry, remove the files it
    references under `/uploads`, drop every entry with that id and save. */
module Deletion {
  import opened Wrappers
  import opened Js
  import opened Upload
  import opened Catalog

  /** A reference is handed to the file system only when it is non-empty and
      starts with `/uploads`. */
  predicate Qualifies(p: string) {
    p != "" && StartsWith(p, UploadsRoot)
  }

  /** The references the handler looks at, in order: the image, then every
      episode URL when the entry's type is `series` and it has an `episodes`
      list, and otherwise its `videoUrl` if it has one. */
  function Candidates(e: Entry): (c: seq<string>)
    ensures |c| >= 1 && c[0] == e.image
    ensures forall i :: 0 <= i < |c| && c[i] != "" ==> c[i] in References(e)
    ensures !(e.itemType == SeriesType && e.episodes.Some?) && e.videoUrl.Some? ==> e.videoUrl.value in c
    ensures e.itemType == SeriesType && e.episodes.Some?
            ==> forall i :: 0 <= i < |e.episodes.value| ==> e.episodes.value[i].url in c
  {
    [e.image]
    + if e.itemType == SeriesType && e.episodes.Some? then EpisodeUrls(e.episodes.value)
      else if e.videoUrl.Some? then [e.videoUrl.value]
      else []
  }

  /** The qualifying references among `refs`. */
  function Qualifying(refs: seq<string>): set<string> {
    set p | p in refs && Qualifies(p)
  }

  /** The files a delete of `e` removes (where they exist). */
  function Targets(e: Entry): (t: set<string>)
    ensures t <= References(e)
    ensures forall p :: p in t ==> Qualifies(p)
    ensures Qualifies(e.image) ==> e.image in t
    // a series with an `episodes` list loses its qualifying episode files
    // and keeps its video; every other entry loses its qualifying video
    ensures e.itemType == SeriesType && e.episodes.Some?
            ==> forall p :: p in t <==> Qualifies(p) && (p == e.image || p in EpisodeUrls(e.episodes.value))
    ensures !(e.itemType == SeriesType && e.episodes.Some?)
            ==> forall p :: p in t <==> Qualifies(p) && (p == e.image || e.videoUrl == Some(p))
  {
    Qualifying(Candidates(e))
  }

  /** The removal step written as the handler runs it: one existence check
      and unlink per reference, the episode list walked with `forEach`. A
      reference that is already missing is skipped. */
  method Reconcile(files: set<string>, e: Entry) returns (remaining: set<string>)
    ensures remaining == files - Targets(e)
  {
    remaining := files;
    if e.image != "" && StartsWith(e.image, UploadsRoot) {
      if e.image in remaining {
        remaining := remaining - {e.image};
      }
    }
    if e.itemType == SeriesType && e.episodes.Some? {
      var eps := e.episodes.value;
      var i := 0;
      while i < |eps|
        invariant 0 <= i <= |eps|
        invariant remaining == files - Qualifying([e.image] + EpisodeUrls(eps)[..i])
      {
        var url := eps[i].url;
        if url != "" && StartsWith(url, UploadsRoot) {
          if url in remaining {
            remaining := remaining - {url};
          }
        }
        assert [e.image] + EpisodeUrls(eps)[..i + 1] == ([e.image] + EpisodeUrls(eps)[..i]) + [url];
        i := i + 1;
      }
      assert EpisodeUrls(eps)[..|eps|] == EpisodeUrls(eps);
    } else if e.videoUrl.Some? && e.videoUrl.value != "" && StartsWith(e.videoUrl.value, UploadsRoot) {
      if e.videoUrl.value in remaining {
        remaining := remaining - {e.videoUrl.value};
      }
    }
  }

  datatype DeleteResponse = Deleted | NotFound

  datatype DeleteOutcome = DeleteOutcome(state: State, response: DeleteResponse)

  /** The whole delete request for the path parameter `idParam`, saving with
      the given write outcome. `parseInt` of a non-numeric parameter is NaN,
      which equals no id. The response is `Deleted` whatever `saveMovies`
      answered. */
  function Delete(st: State, idParam: string, fault: WriteFault): (o: DeleteOutcome)
    ensures o.response == NotFound
            <==> forall i :: 0 <= i < |ReadMovies(st.store)| ==> ParseInt(idParam) != Some(ReadMovies(st.store)[i].id)
    ensures o.response == NotFound ==> o.state == st
    ensures o.response == Deleted ==>
      var movies := ReadMovies(st.store);
      var id := ParseInt(idParam).value;
      exists i :: 0 <= i < |movies| && movies[i].id == id && FirstAt(movies, HasId(id), i)
        && o.state.files == st.files - Targets(movies[i])
    ensures o.response == Deleted && fault == NoFault ==>
      ReadMovies(o.state.store) == Filter(ReadMovies(st.store), OtherId(ParseInt(idParam).value))
  {
    var movies := ReadMovies(st.store);
    match ParseInt(idParam)
    case None => DeleteOutcome(st, NotFound)
    case Some(id) =>
      match Find(movies, HasId(id))
      case None => DeleteOutcome(st, NotFound)
      case Some(e) =>
        var saved := SaveMovies(st.store, Filter(movies, OtherId(id)), fault);
        DeleteOutcome(State(saved.store, st.files - Targets(e)), Deleted)
  }

  /** Dropping the id keeps every other id's entries, in their order. */
  lemma {:induction false} RemoveIdKeepsOthers(ms: seq<Entry>, id: int, other: int)
    requires other != id
    ensures Filter(Filter(ms, OtherId(id)), HasId(other)) == Filter(ms, HasId(other))
  {
    if |ms| > 0 {
      var x := ms[0];
      RemoveIdKeepsOthers(ms[1..], id, other);
      var head := if x.id != id then [x] else [];
      var kept := Filter(ms[1..], OtherId(id));
      assert Filter(ms, OtherId(id)) == head + kept;
      FilterAppend(head, kept, HasId(other));
      if x.id != id {
        FilterSingle(x, HasId(other));
      }
      assert Filter(ms, HasId(other)) == (if x.id == other then [x] else []) + Filter(ms[1..], HasId(other));
    }
  }

  /** Deleting an id that no entry has changes nothing. */
  lemma DeleteUnknownChangesNothing(st: State, id: nat, fault: WriteFault)
    requires forall i :: 0 <= i < |ReadMovies(st.store)| ==> ReadMovies(st.store)[i].id != id
    ensures Delete(st, Decimal(id), fault) == DeleteOutcome(st, NotFound)
  {
    assert Decimal(id) + [] == Decimal(id);
    ParseIntDecimal(id, []);
  }

  /** After a delete whose save went through, or left an unparsable file,
      no entry has the id any more, so a repeated delete reports NotFound and
      changes nothing. */
  lemma DeleteAgainNotFound(st: State, idParam: string, fault1: WriteFault, fault2: WriteFault)
    requires fault1 != OpenFault
    ensures var first := Delete(st, idParam, fault1);
      Delete(first.state, idParam, fault2) == DeleteOutcome(first.state, NotFound)
  {
    var first := Delete(st, idParam, fault1);
    if first.response == Deleted {
      var id := ParseInt(idParam).value;
      var after := ReadMovies(first.state.store);
      if fault1 == NoFault {
        assert after == Filter(ReadMovies(st.store), OtherId(id));
        assert forall i :: 0 <= i < |after| ==> OtherId(id)(after[i]);
      } else {
        assert after == [];
      }
    }
  }

  /** Repeating a delete never removes further files, whatever either save
      did: when the first save left the old file in place, the second delete
      finds the same entry and its files are already gone. */
  lemma DeleteAgainKeepsFiles(st: State, idParam: string, fault1: WriteFault, fault2: WriteFault)
    ensures var first := Delete(st, idParam, fault1);
      Delete(first.state, idParam, fault2).state.files == first.state.files
  {
    var first := Delete(st, idParam, fault1);
    if first.response == Deleted && fault1 == OpenFault {
      assert first.state.store == st.store;
    } else if first.response == Deleted {
      DeleteAgainNotFound(st, idParam, fault1, fault2);
    }
  }

  /** Deleting the id of an entry appended after entries that all have other
      ids removes that entry's targets and restores the earlier list. */
  lemma DeleteAppended(st: State, before: seq<Entry>, e: Entry)
    requires ReadMovies(st.store) == before + [e]
    requires e.id >= 0
    requires forall i :: 0 <= i < |before| ==> before[i].id != e.id
    ensures Delete(st, Decimal(e.id), NoFault) == DeleteOutcome(State(Some(before), st.files - Targets(e)), Deleted)
  {
    var movies := before + [e];
    assert Decimal(e.id) + [] == Decimal(e.id);
    ParseIntDecimal(e.id, []);
    assert movies[|before|] == e;
    var found := Find(movies, HasId(e.id));
    assert found.Some?;
    var i :| 0 <= i < |movies| && movies[i] == found.value && HasId(e.id)(movies[i]) && FirstAt(movies, HasId(e.id), i);
    assert i == |before|;
    FilterAppend(before, [e], OtherId(e.id));
    FilterAll(before, OtherId(e.id));
    FilterSingle(e, OtherId(e.id));
    assert Filter(movies, OtherId(e.id)) == before;
  }
}

=== FILE: js.dfy ===
/** The JavaScript built-ins the server relies on, over Dafny values:
    `Array.prototype.find` and `filter`, `String.prototype.startsWith` and
    `split` (one-character separator), the integer-to-string conversion and
    the global `parseInt` without a radix. */
module Js {
  import opened Wrappers

  // ---------------------------------------------------------------------
  // Arrays
  // ---------------------------------------------------------------------

  /** The index of the first element satisfying `p`, if any. */
  function FindIndex<T>(s: seq<T>, p: T -> bool): (r: Option<nat>)
    ensures r.None? <==> forall i :: 0 <= i < |s| ==> !p(s[i])
    ensures r.Some? ==> r.value < |s| && p(s[r.value]) && FirstAt(s, p, r.value)
  {
    if |s| == 0 then None
    else if p(s[0]) then Some(0)
    else
      match FindIndex(s[1..], p)
      case None => None
      case Some(i) => Some(i + 1)
  }

  /** `s.find(p)`: the first element satisfying `p`, if any. */
  function Find<T>(s: seq<T>, p: T -> bool): (r: Option<T>)
    ensures r.None? <==> forall i :: 0 <= i < |s| ==> !p(s[i])
    ensures r.Some? ==> exists i :: 0 <= i < |s| && s[i] == r.value && p(s[i]) && FirstAt(s, p, i)
  {
    match FindIndex(s, p)
    case None => None
    case Some(i) => Some(s[i])
  }

  /** No element before index `i` satisfies `p`. */
  predicate FirstAt<T>(s: seq<T>, p: T -> bool, i: nat)
    requires i <= |s|
  {
    forall j :: 0 <= j < i ==> !p(s[j])
  }

  /** `s.filter(p)`: the elements satisfying `p`, in their original order. */
  function Filter<T(!new)>(s: seq<T>, p: T -> bool): (r: seq<T>)
    ensures |r| <= |s|
    ensures forall i :: 0 <= i < |r| ==> p(r[i])
  {
    if |s| == 0 then []
    else (if p(s[0]) then [s[0]] else []) + Filter(s[1..], p)
  }

  /** Filtering keeps every occurrence of a kept value and drops every
      occurrence of the others. */
  lemma {:induction false} FilterCounts<T(!new)>(s: seq<T>, p: T -> bool)
    ensures forall x :: multiset(Filter(s, p))[x] == if p(x) then multiset(s)[x] else 0
  {
    if |s| > 0 {
      FilterCounts(s[1..], p);
      assert s == [s[0]] + s[1..];
    }
  }

  /** Filtering distributes over concatenation; together with the contract of
      `Filter` this pins down the order of the kept elements. */
  lemma {:induction false} FilterAppend<T(!new)>(a: seq<T>, b: seq<T>, p: T -> bool)
    ensures Filter(a + b, p) == Filter(a, p) + Filter(b, p)
  {
    if |a| == 0 {
      assert a + b == b;
    } else {
      var head := if p(a[0]) then [a[0]] else [];
      assert (a + b)[0] == a[0];
      assert (a + b)[1..] == a[1..] + b;
      assert Filter(a + b, p) == head + Filter(a[1..] + b, p);
      FilterAppend(a[1..], b, p);
      assert Filter(a, p) == head + Filter(a[1..], p);
    }
  }

  /** Filtering a one-element list. */
  lemma FilterSingle<T(!new)>(x: T, p: T -> bool)
    ensures Filter([x], p) == if p(x) then [x] else []
  {
    assert [x][1..] == [];
  }

  /** Filtering with a predicate every element satisfies changes nothing. */
  lemma {:induction false} FilterAll<T(!new)>(s: seq<T>, p: T -> bool)
    requires forall i :: 0 <= i < |s| ==> p(s[i])
    ensures Filter(s, p) == s
  {
    if |s| > 0 {
      FilterAll(s[1..], p);
    }
  }

  // ---------------------------------------------------------------------
  // Strings
  // ---------------------------------------------------------------------

  /** `s.startsWith(prefix)`. */
  predicate StartsWith(s: string, prefix: string) {
    |prefix| <= |s| && s[..|prefix|] == prefix
  }

  /** `s.split(sep)` for a one-character separator: the maximal
      separator-free pieces between separators (the empty string splits
      into one empty piece). */
  function Split(s: string, sep: char): (parts: seq<string>)
    ensures |parts| >= 1
    ensures forall i :: 0 <= i < |parts| ==> sep !in parts[i]
    ensures sep in s ==> |parts| >= 2
    decreases |s|
  {
    if |s| == 0 then [""]
    else
      var rest := Split(s[1..], sep);
      if s[0] == sep then [""] + rest
      else
        assert sep in s ==> sep in s[1..];
        [[s[0]] + rest[0]] + rest[1..]
  }

  /** `parts.join(sep)`, the inverse of `Split`. */
  function Join(parts: seq<string>, sep: char): string
    requires |parts| >= 1
  {
    if |parts| == 1 then parts[0] else parts[0] + [sep] + Join(parts[1..], sep)
  }

  /** Splitting loses nothing: joining the pieces back gives the input. */
  lemma {:induction false} SplitJoin(s: string, sep: char)
    ensures Join(Split(s, sep), sep) == s
  {
    if |s| > 0 {
      var rest := Split(s[1..], sep);
      SplitJoin(s[1..], sep);
      if s[0] == sep {
        assert ([""] + rest)[1..] == rest;
        assert s == [sep] + s[1..];
      } else if |rest| == 1 {
        assert s == [s[0]] + s[1..];
      } else {
        var parts := [[s[0]] + rest[0]] + rest[1..];
        assert parts[1..] == rest[1..];
        assert s == [s[0]] + s[1..];
      }
    }
  }

  /** A separator-free prefix is glued to the first piece of what follows. */
  lemma {:induction false} SplitPrefix(p: string, x: string, sep: char)
    requires sep !in p
    ensures Split(p + x, sep) == [p + Split(x, sep)[0]] + Split(x, sep)[1..]
    decreases |p|
  {
    if |p| > 0 {
      assert (p + x)[1..] == p[1..] + x;
      SplitPrefix(p[1..], x, sep);
      var rest := Split(p[1..] + x, sep);
      assert (p + x)[0] == p[0] && p[0] != sep;
      assert Split(p + x, sep) == [[p[0]] + rest[0]] + rest[1..];
      assert rest[0] == p[1..] + Split(x, sep)[0];
      assert rest[1..] == Split(x, sep)[1..];
      assert [p[0]] + (p[1..] + Split(x, sep)[0]) == p + Split(x, sep)[0];
    } else {
      assert p + x == x;
      assert p + Split(x, sep)[0] == Split(x, sep)[0];
      assert Split(x, sep) == [Split(x, sep)[0]] + Split(x, sep)[1..];
    }
  }

  /** The first piece is the text up to the first separator: a prefix of
      the text followed by the end or by a separator. */
  lemma {:induction false} FirstPieceIsPrefix(x: string, sep: char)
    ensures var d := Split(x, sep)[0];
      && |d| <= |x| && x[..|d|] == d
      && (|d| < |x| ==> x[|d|] == sep)
    decreases |x|
  {
    if |x| > 0 && x[0] != sep {
      FirstPieceIsPrefix(x[1..], sep);
      var d := Split(x[1..], sep)[0];
      assert Split(x, sep)[0] == [x[0]] + d;
      assert x[..|d| + 1] == [x[0]] + x[1..][..|d|];
    }
  }

  /** A non-empty first piece begins with the first character of the text. */
  lemma FirstPieceStartsText(s: string, sep: char)
    requires |Split(s, sep)[0]| > 0
    ensures |s| > 0 && Split(s, sep)[0][0] == s[0]
  {
  }

  /** The second piece of `p + sep + d + rest` is `d` when neither `p` nor `d`
      holds the separator and `rest` is empty or starts with it. */
  lemma SecondPiece(p: string, d: string, rest: string, sep: char)
    requires sep !in p && sep !in d
    requires rest == [] || rest[0] == sep
    ensures |Split(p + [sep] + d + rest, sep)| >= 2
    ensures Split(p + [sep] + d + rest, sep)[1] == d
  {
    var tail := [sep] + (d + rest);
    assert p + [sep] + d + rest == p + tail;
    SecondPieceOfTail(p, d + rest, sep);
    PieceBeforeSeparator(d, rest, sep);
  }

  lemma SecondPieceOfTail(p: string, x: string, sep: char)
    requires sep !in p
    ensures |Split(p + ([sep] + x), sep)| >= 2
    ensures Split(p + ([sep] + x), sep)[1] == Split(x, sep)[0]
  {
    SplitPrefix(p, [sep] + x, sep);
    SplitAtSeparator(x, sep);
  }

  /** A separator-free `d` followed by nothing or a separator is a whole piece. */
  lemma PieceBeforeSeparator(d: string, rest: string, sep: char)
    requires sep !in d
    requires rest == [] || rest[0] == sep
    ensures Split(d + rest, sep)[0] == d
  {
    SplitPrefix(d, rest, sep);
    if rest != [] {
      assert rest == [sep] + rest[1..];
      SplitAtSeparator(rest[1..], sep);
    }
    assert Split(rest, sep)[0] == [];
    assert d + [] == d;
  }

  /** A separator starts a new piece. */
  lemma SplitAtSeparator(x: string, sep: char)
    ensures Split([sep] + x, sep) == [""] + Split(x, sep)
  {
    assert ([sep] + x)[1..] == x;
  }

  // ---------------------------------------------------------------------
  // Decimal numerals
  // ---------------------------------------------------------------------

  predicate IsDigit(c: char) {
    '0' <= c <= '9'
  }

  function DigitChar(d: nat): (c: char)
    requires d < 10
    ensures IsDigit(c)
  {
    ('0' as int + d) as char
  }

  /** The decimal numeral of `n`, as JavaScript writes an integer-valued
      Number below 10^21 (`String(n)`, or `n + ''`). */
  function Decimal(n: nat): (r: string)
    ensures |r| >= 1
    ensures forall i :: 0 <= i < |r| ==> IsDigit(r[i])
    ensures r[0] == '0' ==> n == 0
  {
    if n < 10 then [DigitChar(n)] else Decimal(n / 10) + [DigitChar(n % 10)]
  }

  /** A character that is not a digit never occurs in a numeral. */
  lemma DecimalExcludes(n: nat, c: char)
    requires !IsDigit(c)
    ensures c !in Decimal(n)
  {
  }

  // ---------------------------------------------------------------------
  // parseInt
  // ---------------------------------------------------------------------

  /** The characters `parseInt` skips at the front (ECMAScript's
      WhiteSpace and LineTerminator productions). */
  predicate IsWhiteSpace(c: char) {
    || c == '\t' || c == '\n' || c == '\U{B}' || c == '\U{C}' || c == '\r'
    || c == ' ' || c == '\U{A0}' || c == '\U{1680}'
    || ('\U{2000}' <= c <= '\U{200A}')
    || c == '\U{2028}' || c == '\U{2029}' || c == '\U{202F}' || c == '\U{205F}'
    || c == '\U{3000}' || c == '\U{FEFF}'
  }

  function TrimStart(s: string): (r: string)
    ensures |r| <= |s| && r == s[|s| - |r|..]
    ensures |r| > 0 ==> !IsWhiteSpace(r[0])
  {
    if |s| > 0 && IsWhiteSpace(s[0]) then TrimStart(s[1..]) else s
  }

  /** The value of `c` as a digit in base `radix` (10 or 16). */
  function RadixDigit(c: char, radix: nat): Option<nat>
  {
    if '0' <= c <= '9' then Some(c as int - '0' as int)
    else if radix == 16 && 'a' <= c <= 'f' then Some(c as int - 'a' as int + 10)
    else if radix == 16 && 'A' <= c <= 'F' then Some(c as int - 'A' as int + 10)
    else None
  }

  predicate AllRadixDigits(s: string, radix: nat) {
    forall i :: 0 <= i < |s| ==> RadixDigit(s[i], radix).Some?
  }

  /** The longest prefix of `s` made of digits in base `radix`. */
  function DigitPrefix(s: string, radix: nat): (r: string)
    ensures |r| <= |s| && r == s[..|r|]
    ensures AllRadixDigits(r, radix)
    ensures |r| < |s| ==> RadixDigit(s[|r|], radix).None?
  {
    if |s| > 0 && RadixDigit(s[0], radix).Some? then [s[0]] + DigitPrefix(s[1..], radix) else []
  }

  /** The value of a numeral in base `radix`, most significant digit first. */
  function ValueIn(digits: string, radix: nat): nat
    requires AllRadixDigits(digits, radix)
  {
    if |digits| == 0 then 0
    else ValueIn(digits[..|digits| - 1], radix) * radix + RadixDigit(digits[|digits| - 1], radix).value
  }

  /** The global `parseInt(s)` with no radix argument; `None` is `NaN`.
      Leading white space is skipped and one sign is accepted before the
      magnitude is read. */
  function ParseInt(s: string): (r: Option<int>)
    // a number needs some text after the white space, and a negative one a minus sign there
    ensures r.Some? ==> |TrimStart(s)| > 0
    ensures r.Some? && r.value < 0 ==> TrimStart(s)[0] == '-'
  {
    var t := TrimStart(s);
    var negative := |t| > 0 && t[0] == '-';
    var u := if |t| > 0 && (t[0] == '-' || t[0] == '+') then t[1..] else t;
    match ParseMagnitude(u)
    case None => None
    case Some(m) => Some(if negative then 0 - m else m)
  }

  /** The unsigned part of `parseInt`: a `0x`/`0X` prefix selects base 16,
      and the longest run of digits that follows is read; anything after it
      is ignored. No digit at all gives `NaN`. */
  function ParseMagnitude(u: string): Option<nat>
  {
    var hex := |u| >= 2 && u[0] == '0' && (u[1] == 'x' || u[1] == 'X');
    var radix := if hex then 16 else 10;
    var z := DigitPrefix(if hex then u[2..] else u, radix);
    if |z| == 0 then None else Some(ValueIn(z, radix))
  }

  /** Reading back a decimal numeral gives the number it was written from. */
  lemma {:induction false} DecimalValue(n: nat)
    ensures AllRadixDigits(Decimal(n), 10)
    ensures ValueIn(Decimal(n), 10) == n
  {
    if n >= 10 {
      var d := Decimal(n / 10);
      DecimalValue(n / 10);
      assert (d + [DigitChar(n % 10)])[..|d|] == d;
    }
  }

  /** The digit run of a numeral followed by a non-digit is the numeral. */
  lemma {:induction false} DigitPrefixOfNumeral(d: string, t: string)
    requires AllRadixDigits(d, 10)
    requires t == [] || !IsDigit(t[0])
    ensures DigitPrefix(d + t, 10) == d
  {
    if |d| > 0 {
      assert (d + t)[1..] == d[1..] + t;
      DigitPrefixOfNumeral(d[1..], t);
      assert d == [d[0]] + d[1..];
    } else {
      assert d + t == t;
    }
  }

  /** `parseInt` reads back `String(n)`, also when text that does not
      continue the numeral follows it (`parseInt("12.mp4")` is 12). The one
      trap is `0` followed by `x`: `parseInt("0x1")` reads hexadecimal. */
  lemma ParseIntDecimal(n: nat, t: string)
    requires t == [] || !IsDigit(t[0])
    requires n == 0 && t != [] ==> t[0] != 'x' && t[0] != 'X'
    ensures ParseInt(Decimal(n) + t) == Some(n)
  {
    var s := Decimal(n) + t;
    assert s[0] == Decimal(n)[0];
    ParseMagnitudeDecimal(n, t);
    ParseIntUnsigned(s);
  }

  /** Text that starts with a digit has no white space or sign to skip. */
  lemma ParseIntUnsigned(s: string)
    requires |s| > 0 && IsDigit(s[0])
    ensures ParseInt(s) == (match ParseMagnitude(s) case None => None case Some(m) => Some(m))
  {
    assert TrimStart(s) == s by {
      assert !IsWhiteSpace(s[0]);
    }
    assert s[0] != '-' && s[0] != '+';
  }

  lemma ParseMagnitudeDecimal(n: nat, t: string)
    requires t == [] || !IsDigit(t[0])
    requires n == 0 && t != [] ==> t[0] != 'x' && t[0] != 'X'
    ensures ParseMagnitude(Decimal(n) + t) == Some(n)
  {
    NumeralNotHex(n, t);
    DecimalValue(n);
    DigitPrefixOfNumeral(Decimal(n), t);
  }

  /** A numeral, followed by no `x`/`X` when it is `0`, has no hex prefix. */
  lemma NumeralNotHex(n: nat, t: string)
    requires n == 0 && t != [] ==> t[0] != 'x' && t[0] != 'X'
    ensures var s := Decimal(n) + t; !(|s| >= 2 && s[0] == '0' && (s[1] == 'x' || s[1] == 'X'))
  {
    var s := Decimal(n) + t;
    if |s| >= 2 && s[0] == '0' {
      assert s[0] == Decimal(n)[0];
      assert Decimal(n) == "0";
      assert s[1] == t[0];
    }
  }

  /** A leading zero does not change a numeral's value. */
  lemma {:induction false} LeadingZeroValue(d: string)
    requires AllRadixDigits(d, 10)
    ensures AllRadixDigits("0" + d, 10) && ValueIn("0" + d, 10) == ValueIn(d, 10)
    decreases |d|
  {
    var z := "0" + d;
    assert forall i :: 1 <= i < |z| ==> z[i] == d[i - 1];
    if |d| == 0 {
      assert z[..0] == [];
    } else {
      var init := d[..|d| - 1];
      LeadingZeroValue(init);
      assert z[..|z| - 1] == "0" + init;
    }
  }

  /** A leading zero does not make `parseInt` read octal: `parseInt("0" + n)`
      is `n` (`parseInt("01")` is 1). */
  lemma ParseIntLeadingZero(n: nat)
    ensures ParseInt("0" + Decimal(n)) == Some(n)
  {
    var s := "0" + Decimal(n);
    MagnitudeLeadingZero(n);
    assert s[0] == '0';
    ParseIntUnsigned(s);
  }

  lemma MagnitudeLeadingZero(n: nat)
    ensures ParseMagnitude("0" + Decimal(n)) == Some(n)
  {
    var d := Decimal(n);
    var s := "0" + d;
    DecimalValue(n);
    LeadingZeroValue(d);
    assert s[1] == d[0] && IsDigit(d[0]);
    DigitPrefixOfNumeral(s, []);
    assert s + [] == s;
  }

  /** Text without any decimal digit does not parse (`parseInt` gives NaN). */
  lemma ParseIntNoDigits(s: string)
    requires forall i :: 0 <= i < |s| ==> !IsDigit(s[i])
    ensures ParseInt(s) == None
  {
    var t := TrimStart(s);
    var u := if |t| > 0 && (t[0] == '-' || t[0] == '+') then t[1..] else t;
    assert forall i :: 0 <= i < |u| ==> u[i] == s[|s| - |u| + i];
    NoLeadingDigit(u);
  }

  /** A magnitude that does not start with a digit is `NaN`. */
  lemma NoLeadingDigit(u: string)
    requires |u| == 0 || !IsDigit(u[0])
    ensures ParseMagnitude(u) == None
  {
  }

  /** `"<a>-<b><t>".split('-')` starts with the two numerals' pieces. */
  lemma {:induction false} NumeralPairPieces(a: nat, b: nat, t: string)
    ensures Split(Decimal(a) + "-" + Decimal(b) + t, '-')
         == [Decimal(a)] + ([Decimal(b) + Split(t, '-')[0]] + Split(t, '-')[1..])
  {
    var c := Decimal(a);
    var r := Decimal(b);
    DecimalExcludes(a, '-');
    DecimalExcludes(b, '-');
    assert c + "-" + r + t == c + ([('-')] + (r + t));
    SplitPrefix(c, [('-')] + (r + t), '-');
    SplitAtSeparator(r + t, '-');
    SplitPrefix(r, t, '-');
    assert c + "" == c;
  }

  /** Both numerals of `"<a>-<b><t>"` read back with `split('-')` and
      `parseInt` when `t` is empty or starts with a `.`. */
  lemma NumeralPairDecodes(a: nat, b: nat, t: string)
    requires t == [] || t[0] == '.'
    ensures var pieces := Split(Decimal(a) + "-" + Decimal(b) + t, '-');
      && |pieces| >= 2
      && ParseInt(pieces[0]) == Some(a)
      && ParseInt(pieces[1]) == Some(b)
  {
    NumeralPairPieces(a, b, t);
    var rest := Split(t, '-');
    assert Decimal(a) + [] == Decimal(a);
    ParseIntDecimal(a, []);
    if |rest[0]| > 0 {
      FirstPieceStartsText(t, '-');
    }
    ParseIntDecimal(b, rest[0]);
  }
}

=== FILE: lifecycle.dfy ===
/** Properties that relate the create and delete requests: a created entry
    refers only to files its upload wrote, a delete removes exactly those
    references, and create followed by delete restores the catalog. */
module Lifecycle {
  import opened Wrappers
  import opened Js
  import opened Upload
  import opened Catalog
  import opened Builder
  import opened Deletion

  /** The URL the handler writes for a part is where multer stored it. */
  lemma UrlIsStoredPath(f: StoredFile)
    requires Destination(f.fieldName) == Some(f.bucket)
    ensures f.fieldName == "image" ==> ImageUrl(f.fileName) == StoredPath(f)
    ensures f.fieldName == "video" || IsEpisodeField(f.fieldName) ==> MovieUrl(f.fileName) == StoredPath(f)
  {
    assert UploadsRoot + "/" + BucketDir(ImagesBucket) + "/" == "/uploads/images/";
    assert UploadsRoot + "/" + BucketDir(MoviesBucket) + "/" == "/uploads/movies/";
  }

  /** Where each reference of a built entry comes from: the image is the
      image URL of the first `image` part (empty without one), the video URL
      the movie URL of the first `video` part (empty without one), and each
      episode URL the movie URL of an `episode_*` part. */
  predicate ShapedFrom(e: Entry, files: seq<StoredFile>) {
    && FirstPartUrl(e.image, files, "image", ImageUrl)
    && (e.videoUrl.Some? ==> FirstPartUrl(e.videoUrl.value, files, "video", MovieUrl))
    && (e.episodes.Some? ==> forall ep :: ep in e.episodes.value ==>
          exists f :: f in files && IsEpisodePart(f) && ep.url == MovieUrl(f.fileName))
  }

  lemma BuiltShape(fields: Fields, files: seq<StoredFile>, now: nat)
    ensures ShapedFrom(BuildItem(fields, files, now), files)
  {
    var e := BuildItem(fields, files, now);
    if e.episodes.Some? {
      SortedEpisodesFromParts(files);
    }
  }

  /** Each sorted episode comes from an `episode_*` part. */
  lemma SortedEpisodesFromParts(files: seq<StoredFile>)
    ensures forall ep :: ep in SortEpisodes(CollectEpisodes(files)) ==>
      exists f :: f in files && IsEpisodePart(f) && ep.url == MovieUrl(f.fileName)
  {
    var eps := CollectEpisodes(files);
    CollectedEpisodesFromParts(files);
    forall ep | ep in SortEpisodes(eps)
      ensures ep in eps
    {
      assert ep in multiset(SortEpisodes(eps));
    }
  }

  /** Each collected episode comes from an `episode_*` part. */
  lemma CollectedEpisodesFromParts(files: seq<StoredFile>)
    ensures forall ep :: ep in CollectEpisodes(files) ==>
      exists f :: f in files && IsEpisodePart(f) && ep.url == MovieUrl(f.fileName)
  {
    var parts := Filter(files, IsEpisodePart);
    var eps := CollectEpisodes(files);
    FilterCounts(files, IsEpisodePart);
    forall ep | ep in eps
      ensures exists f :: f in files && IsEpisodePart(f) && ep.url == MovieUrl(f.fileName)
    {
      var i :| 0 <= i < |eps| && eps[i] == ep;
      var f := parts[i];
      assert f in multiset(parts);
      assert f in files && IsEpisodePart(f) && ep.url == MovieUrl(f.fileName);
    }
  }

  /** The handler's URL for a stored part is one of the upload's paths. */
  lemma UrlWritten(files: seq<StoredFile>, f: StoredFile)
    requires forall g :: g in files ==> Destination(g.fieldName) == Some(g.bucket)
    requires f in files
    ensures f.fieldName == "image" ==> ImageUrl(f.fileName) in WrittenPaths(files)
    ensures f.fieldName == "video" || IsEpisodePart(f) ==> MovieUrl(f.fileName) in WrittenPaths(files)
  {
    UrlIsStoredPath(f);
    assert StoredPath(f) in WrittenPaths(files);
  }

  /** An entry shaped from stored files refers only to files they wrote. */
  lemma ShapedReferencesStored(e: Entry, files: seq<StoredFile>)
    requires forall f :: f in files ==> Destination(f.fieldName) == Some(f.bucket)
    requires ShapedFrom(e, files)
    ensures References(e) <= WrittenPaths(files)
  {
    ImageWritten(e.image, files);
    if e.videoUrl.Some? {
      VideoWritten(e.videoUrl.value, files);
    }
    if e.episodes.Some? {
      EpisodeUrlsWritten(e.episodes.value, files);
    }
  }

  /** A non-empty first-image URL was written by the upload. */
  lemma ImageWritten(u: string, files: seq<StoredFile>)
    requires forall f :: f in files ==> Destination(f.fieldName) == Some(f.bucket)
    requires FirstPartUrl(u, files, "image", ImageUrl)
    ensures u != "" ==> u in WrittenPaths(files)
  {
    if u != "" {
      var i :| 0 <= i < |files| && files[i].fieldName == "image" && u == ImageUrl(files[i].fileName);
      UrlWritten(files, files[i]);
    }
  }

  /** A non-empty first-video URL was written by the upload. */
  lemma VideoWritten(u: string, files: seq<StoredFile>)
    requires forall f :: f in files ==> Destination(f.fieldName) == Some(f.bucket)
    requires FirstPartUrl(u, files, "video", MovieUrl)
    ensures u != "" ==> u in WrittenPaths(files)
  {
    if u != "" {
      var i :| 0 <= i < |files| && files[i].fieldName == "video" && u == MovieUrl(files[i].fileName);
      UrlWritten(files, files[i]);
    }
  }

  /** Episode URLs taken from stored `episode_*` parts were all written. */
  lemma EpisodeUrlsWritten(eps: seq<Episode>, files: seq<StoredFile>)
    requires forall f :: f in files ==> Destination(f.fieldName) == Some(f.bucket)
    requires forall ep :: ep in eps ==>
      exists f :: f in files && IsEpisodePart(f) && ep.url == MovieUrl(f.fileName)
    ensures forall u :: u in EpisodeUrls(eps) ==> u in WrittenPaths(files)
  {
    var urls := EpisodeUrls(eps);
    forall u | u in urls
      ensures u in WrittenPaths(files)
    {
      var k :| 0 <= k < |urls| && urls[k] == u;
      assert eps[k] in eps;
      var f :| f in files && IsEpisodePart(f) && u == MovieUrl(f.fileName);
      UrlWritten(files, f);
    }
  }

  /** A built entry refers only to files its upload wrote. */
  lemma BuiltReferencesStored(fields: Fields, files: seq<StoredFile>, now: nat)
    requires forall f :: f in files ==> Destination(f.fieldName) == Some(f.bucket)
    ensures References(BuildItem(fields, files, now)) <= WrittenPaths(files)
  {
    BuiltShape(fields, files, now);
    ShapedReferencesStored(BuildItem(fields, files, now), files);
  }

  /** After a create, every file the new entry refers to exists. */
  lemma CreatedReferencesExist(st: State, fields: Fields, arrivals: seq<Arrival>, now: nat, fault: WriteFault)
    requires Routable(arrivals)
    ensures var o := Create(st, fields, arrivals, now, fault);
      References(o.response.item) <= o.state.files
  {
    StoredInOwnBucket(arrivals);
    BuiltReferencesStored(fields, StoreUploads(arrivals).stored, now);
  }

  /** The handler's URLs all start with `/uploads`. */
  lemma UrlsUnderUploads(name: string)
    ensures Qualifies(ImageUrl(name)) && Qualifies(MovieUrl(name))
  {
    assert ImageUrl(name)[..|UploadsRoot|] == UploadsRoot;
    assert MovieUrl(name)[..|UploadsRoot|] == UploadsRoot;
  }

  /** For an entry shaped from stored files whose `videoUrl`/`episodes`
      follow its type, the delete targets are exactly its references. */
  lemma ShapedTargetsAreReferences(e: Entry, files: seq<StoredFile>)
    requires ShapedFrom(e, files)
    requires e.episodes.Some? <==> e.itemType == SeriesType
    requires e.videoUrl.Some? <==> e.itemType != SeriesType
    ensures Targets(e) == References(e)
  {
    forall p | p in References(e)
      ensures p in Targets(e)
    {
      if p == e.image {
        var i :| 0 <= i < |files| && files[i].fieldName == "image" && e.image == ImageUrl(files[i].fileName);
        UrlsUnderUploads(files[i].fileName);
      } else if e.videoUrl.Some? && p == e.videoUrl.value {
        var i :| 0 <= i < |files| && files[i].fieldName == "video" && p == MovieUrl(files[i].fileName);
        UrlsUnderUploads(files[i].fileName);
      } else {
        var urls := EpisodeUrls(e.episodes.value);
        var k :| 0 <= k < |urls| && urls[k] == p;
        assert e.episodes.value[k] in e.episodes.value;
        var f :| f in files && IsEpisodePart(f) && p == MovieUrl(f.fileName);
        UrlsUnderUploads(f.fileName);
      }
    }
    forall p | p in Targets(e)
      ensures p in References(e)
    {
      if p != e.image && e.episodes.Some? {
        var urls := EpisodeUrls(e.episodes.value);
        var k :| 0 <= k < |urls| && urls[k] == p;
      }
    }
  }

  /** A built entry's references all start with `/uploads`, so a delete of
      it targets exactly its references. */
  lemma BuiltTargetsAreReferences(fields: Fields, files: seq<StoredFile>, now: nat)
    ensures Targets(BuildItem(fields, files, now)) == References(BuildItem(fields, files, now))
  {
    BuiltShape(fields, files, now);
    ShapedTargetsAreReferences(BuildItem(fields, files, now), files);
  }

  /** Create followed by a delete of the new id (sent as its decimal text),
      both saves succeeding and the id not used before: the delete finds the
      new entry, removes exactly its files, and the catalog is the one from
      before the create. */
  lemma CreateThenDelete(st: State, fields: Fields, arrivals: seq<Arrival>, now: nat)
    requires Routable(arrivals)
    requires forall i :: 0 <= i < |ReadMovies(st.store)| ==> ReadMovies(st.store)[i].id != now
    ensures var created := Create(st, fields, arrivals, now, NoFault);
      var deleted := Delete(created.state, Decimal(now), NoFault);
      && deleted.response == Deleted
      && ReadMovies(deleted.state.store) == ReadMovies(st.store)
      && deleted.state.files == created.state.files - References(created.response.item)
  {
    var created := Create(st, fields, arrivals, now, NoFault);
    var item := created.response.item;
    DeleteAppended(created.state, ReadMovies(st.store), item);
    StoredInOwnBucket(arrivals);
    BuiltTargetsAreReferences(fields, StoreUploads(arrivals).stored, now);
  }
}

=== FILE: nodepath.dfy ===
/** Node's `path.extname` on POSIX paths, which the upload filename callback
    uses to keep the client's file extension. Like Node, it works on
    positions in the path and scans from the end. */
module NodePath {
  import opened Wrappers

  /** The end of `p[..k]` once its trailing `/` characters are dropped. */
  function TrimEnd(p: string, k: nat): (e: nat)
    requires k <= |p|
    ensures e <= k
    ensures e > 0 ==> p[e - 1] != '/'
    ensures forall i :: e <= i < k ==> p[i] == '/'
  {
    if k > 0 && p[k - 1] == '/' then TrimEnd(p, k - 1) else k
  }

  /** The position of the last `c` in `s[lo..hi]`, if there is one. */
  function LastIn(s: string, lo: nat, hi: nat, c: char): (r: Option<nat>)
    requires lo <= hi <= |s|
    ensures r.None? ==> forall i :: lo <= i < hi ==> s[i] != c
    ensures r.Some? ==> lo <= r.value < hi && s[r.value] == c
    ensures r.Some? ==> forall i :: r.value < i < hi ==> s[i] != c
    decreases hi
  {
    if hi == lo then None
    else if s[hi - 1] == c then Some(hi - 1)
    else LastIn(s, lo, hi - 1, c)
  }

  /** Where the last component of `p[..end]` starts. */
  function LastComponentStart(p: string, end: nat): (start: nat)
    requires end <= |p|
    ensures start <= end
    ensures forall i :: start <= i < end ==> p[i] != '/'
  {
    match LastIn(p, 0, end, '/')
    case None => 0
    case Some(j) => j + 1
  }

  /** `path.extname(p)`: the last component's text from its last `.` on;
      empty when the component has no `.`, when that `.` opens the
      component (`.profile`, `.`), and for the component `..`. */
  function ExtName(p: string): (r: string)
    ensures r == [] || r[0] == '.'
    ensures '/' !in r
    ensures forall i :: 0 < i < |r| ==> r[i] != '.'
  {
    var end := TrimEnd(p, |p|);
    var start := LastComponentStart(p, end);
    match LastIn(p, start, end, '.')
    case None => ""
    case Some(d) =>
      if d == start || (d == start + 1 && d == end - 1 && p[start] == '.') then ""
      else
        assert forall i :: 0 <= i < end - d ==> p[d..end][i] == p[d + i];
        p[d..end]
  }

  /** A last `c` before `mid` is the last one before `hi` when `s[mid..hi]`
      holds none. */
  lemma {:induction false} LastInSkip(s: string, lo: nat, mid: nat, hi: nat, c: char)
    requires lo <= mid <= hi <= |s|
    requires forall i :: mid <= i < hi ==> s[i] != c
    ensures LastIn(s, lo, hi, c) == LastIn(s, lo, mid, c)
    decreases hi
  {
    if hi > mid {
      LastInSkip(s, lo, mid, hi - 1, c);
    }
  }

  /** In `dir + name`, with `dir` empty or ending in `/` and a non-empty,
      `/`-free name, the last component is `name`. */
  lemma ComponentOfName(dir: string, name: string)
    requires dir == [] || dir[|dir| - 1] == '/'
    requires name != [] && '/' !in name
    ensures var p := dir + name;
      TrimEnd(p, |p|) == |p| && LastComponentStart(p, |p|) == |dir|
  {
    var p := dir + name;
    assert p[|p| - 1] == name[|name| - 1];
    assert forall i :: |dir| <= i < |p| ==> p[i] == name[i - |dir|];
    LastInSkip(p, 0, |dir|, |p|, '/');
    if dir != [] {
      assert p[|dir| - 1] == '/';
    }
  }

  /** `extname("dir/stem.ext")` is `.ext` when the stem is not empty and
      not a lone `.` in front of an empty extension. */
  lemma ExtNameOfName(dir: string, stem: string, ext: string)
    requires dir == [] || dir[|dir| - 1] == '/'
    requires stem != [] && '/' !in stem
    requires '/' !in ext && '.' !in ext
    requires !(stem == "." && ext == [])
    ensures ExtName(dir + stem + "." + ext) == "." + ext
  {
    var name := stem + "." + ext;
    var p := dir + name;
    assert dir + stem + "." + ext == p;
    assert '/' !in name;
    ComponentOfName(dir, name);
    var d := |dir| + |stem|;
    LastDotOfName(dir, stem, ext);
    assert p[d..|p|] == "." + ext;
    if d == |dir| + 1 && d == |p| - 1 {
      assert stem == [p[|dir|]];
    }
  }

  /** The last `.` of `dir + stem + "." + ext` is the one after the stem. */
  lemma LastDotOfName(dir: string, stem: string, ext: string)
    requires '.' !in ext
    ensures var p := dir + stem + "." + ext;
      LastIn(p, |dir|, |p|, '.') == Some(|dir| + |stem|)
  {
    var p := dir + stem + "." + ext;
    var d := |dir| + |stem|;
    assert p[d] == '.';
    assert forall i :: d < i < |p| ==> p[i] == ext[i - d - 1];
    LastInSkip(p, |dir|, d + 1, |p|, '.');
  }

  /** A last component without a `.` has no extension. */
  lemma ExtNameNoDot(dir: string, name: string)
    requires dir == [] || dir[|dir| - 1] == '/'
    requires name != [] && '/' !in name && '.' !in name
    ensures ExtName(dir + name) == ""
  {
    var p := dir + name;
    ComponentOfName(dir, name);
    assert forall i :: |dir| <= i < |p| ==> p[i] == name[i - |dir|];
    LastInSkip(p, |dir|, |dir|, |p|, '.');
  }

  /** A hidden file such as `.profile` has no extension. */
  lemma ExtNameDotFile(dir: string, name: string)
    requires dir == [] || dir[|dir| - 1] == '/'
    requires '/' !in name && '.' !in name
    ensures ExtName(dir + "." + name) == ""
  {
    var base := "." + name;
    var p := dir + base;
    assert dir + "." + name == p;
    assert '/' !in base;
    ComponentOfName(dir, base);
    assert p[|dir|] == '.';
    assert forall i :: |dir| < i < |p| ==> p[i] == name[i - |dir| - 1];
    LastInSkip(p, |dir|, |dir| + 1, |p|, '.');
  }

  /** Appending an extension to a name without `.` gives that extension. */
  lemma ExtNameAfterStem(stem: string, ext: string)
    requires stem != [] && '/' !in stem && '.' !in stem
    requires ext == [] || ext[0] == '.'
    requires '/' !in ext
    requires forall i :: 0 < i < |ext| ==> ext[i] != '.'
    ensures ExtName(stem + ext) == ext
  {
    if ext == [] {
      assert stem + ext == [] + stem;
      ExtNameNoDot([], stem);
    } else {
      var e := ext[1..];
      assert ext == "." + e;
      assert '.' !in e by {
        assert forall i :: 0 <= i < |e| ==> e[i] == ext[i + 1];
      }
      assert stem + ext == [] + stem + "." + e;
      ExtNameOfName([], stem, e);
    }
  }
}

=== FILE: upload.dfy ===
/** The multer disk-storage configuration of the server: which directory
    ("bucket") an uploaded part is written to, the generated file name, and
    the upload stage of a request as a whole. The clock (`Date.now()`) and
    the random source (`Math.round(Math.random() * 1E9)`) are parameters. */
module Upload {
  import opened Wrappers
  import opened Js
  import NodePath

  /** The two upload directories under `uploads/`. */
  datatype Bucket = MoviesBucket | ImagesBucket

  function BucketDir(b: Bucket): string {
    match b
    case MoviesBucket => "movies"
    case ImagesBucket => "images"
  }

  /** The URL prefix under which the upload directories are served. */
  const UploadsRoot: string := "/uploads"

  /** A file part as the client sent it. */
  datatype IncomingPart = IncomingPart(fieldName: string, originalName: string)

  /** A part after multer wrote it: `file.fieldname`, `file.originalname`,
      the directory chosen for it and `file.filename`. */
  datatype StoredFile = StoredFile(fieldName: string, originalName: string, bucket: Bucket, fileName: string)

  const EpisodeFieldPrefix: string := "episode_"

  predicate IsEpisodeField(fieldName: string) {
    StartsWith(fieldName, EpisodeFieldPrefix)
  }

  /** The `destination` callback: `video` and `episode_*` parts go to the
      movies directory, `image` parts to the images directory, and for any
      other field name the callback never answers. */
  function Destination(fieldName: string): (b: Option<Bucket>)
    ensures b == Some(MoviesBucket) <==> fieldName == "video" || IsEpisodeField(fieldName)
    ensures b == Some(ImagesBucket) <==> fieldName == "image"
    ensures b == None <==> fieldName != "video" && fieldName != "image" && !IsEpisodeField(fieldName)
  {
    if fieldName == "video" || IsEpisodeField(fieldName) then Some(MoviesBucket)
    else if fieldName == "image" then Some(ImagesBucket)
    else None
  }

  /** The `filename` callback: `<clock>-<random><extname(originalName)>`.
      The name never contains `/`, so the file lands directly in its bucket. */
  function StoredName(clock: nat, rand: nat, originalName: string): (name: string)
    ensures '/' !in name
    ensures |name| > 0 && IsDigit(name[0])
  {
    DecimalExcludes(clock, '/');
    DecimalExcludes(rand, '/');
    var c := Decimal(clock);
    assert (c + "-" + Decimal(rand) + NodePath.ExtName(originalName))[0] == c[0];
    c + "-" + Decimal(rand) + NodePath.ExtName(originalName)
  }

  /** The stored name can be taken apart again: the text before the first `-`
      reads back as the clock and the next piece as the random number. */
  lemma StoredNameDecodes(clock: nat, rand: nat, originalName: string)
    ensures var pieces := Split(StoredName(clock, rand, originalName), '-');
      && |pieces| >= 2
      && ParseInt(pieces[0]) == Some(clock)
      && ParseInt(pieces[1]) == Some(rand)
  {
    NumeralPairDecodes(clock, rand, NodePath.ExtName(originalName));
  }

  /** The stored name keeps the extension of the client's file name. */
  lemma StoredNameKeepsExt(clock: nat, rand: nat, originalName: string)
    ensures NodePath.ExtName(StoredName(clock, rand, originalName)) == NodePath.ExtName(originalName)
  {
    var stem := Decimal(clock) + "-" + Decimal(rand);
    DecimalExcludes(clock, '/');
    DecimalExcludes(rand, '/');
    DecimalExcludes(clock, '.');
    DecimalExcludes(rand, '.');
    assert '/' !in stem && '.' !in stem;
    NodePath.ExtNameAfterStem(stem, NodePath.ExtName(originalName));
  }

  /** Where a stored file is served: `/uploads/<bucket>/<file name>`. */
  function StoredPath(f: StoredFile): string {
    UploadsRoot + "/" + BucketDir(f.bucket) + "/" + f.fileName
  }

  /** The upload stage of a request (`upload.any()`): parts are stored one
      after another. A part whose field name has no destination never
      completes, so the request stalls there; the parts stored before it stay
      on disk. */
  datatype UploadResult = UploadResult(stored: seq<StoredFile>, complete: bool)

  /** A part together with the clock reading and the random number its
      `filename` callback draws. */
  datatype Arrival = Arrival(part: IncomingPart, clock: nat, rand: nat)

  /** `f` is what multer records for part `a.part` at that clock and random
      number. */
  predicate StoredFrom(f: StoredFile, a: Arrival) {
    && f.fieldName == a.part.fieldName
    && f.originalName == a.part.originalName
    && Destination(a.part.fieldName) == Some(f.bucket)
    && f.fileName == StoredName(a.clock, a.rand, a.part.originalName)
  }

  /** One part through the `destination` and `filename` callbacks; `None`
      when the destination callback never answers. */
  function StorePart(a: Arrival): (r: Option<StoredFile>)
    ensures r.Some? <==> Destination(a.part.fieldName).Some?
    ensures r.Some? ==> StoredFrom(r.value, a)
  {
    match Destination(a.part.fieldName)
    case None => None
    case Some(b) => Some(StoredFile(a.part.fieldName, a.part.originalName, b, StoredName(a.clock, a.rand, a.part.originalName)))
  }

  /** Every part of the request has a destination, so no part stalls it. */
  predicate Routable(arrivals: seq<Arrival>) {
    forall i :: 0 <= i < |arrivals| ==> Destination(arrivals[i].part.fieldName).Some?
  }

  function StoreUploads(arrivals: seq<Arrival>): (u: UploadResult)
    ensures |u.stored| <= |arrivals|
    ensures u.complete <==> Routable(arrivals)
    ensures u.complete ==> |u.stored| == |arrivals|
    ensures !u.complete ==> |u.stored| < |arrivals| && Destination(arrivals[|u.stored|].part.fieldName).None?
    ensures forall i :: 0 <= i < |u.stored| ==> StoredFrom(u.stored[i], arrivals[i])
  {
    var (stored, complete) := WhileSome(arrivals, StorePart);
    UploadResult(stored, complete)
  }

  /** Applies `step` to the elements in order and stops at the first `None`;
      the flag tells whether every element went through. */
  function WhileSome<A, B>(s: seq<A>, step: A -> Option<B>): (r: (seq<B>, bool))
    ensures |r.0| <= |s|
    ensures r.1 <==> forall i :: 0 <= i < |s| ==> step(s[i]).Some?
    ensures r.1 ==> |r.0| == |s|
    ensures !r.1 ==> |r.0| < |s| && step(s[|r.0|]).None?
    ensures forall i :: 0 <= i < |r.0| ==> step(s[i]) == Some(r.0[i])
  {
    if |s| == 0 then ([], true)
    else
      match step(s[0])
      case None => ([], false)
      case Some(y) =>
        var (rest, complete) := WhileSome(s[1..], step);
        ([y] + rest, complete)
  }

  /** Every stored file sits in the bucket its field name selects. */
  lemma StoredInOwnBucket(arrivals: seq<Arrival>)
    ensures forall f :: f in StoreUploads(arrivals).stored ==> Destination(f.fieldName) == Some(f.bucket)
  {
    var u := StoreUploads(arrivals);
    forall f | f in u.stored
      ensures Destination(f.fieldName) == Some(f.bucket)
    {
      var i :| 0 <= i < |u.stored| && u.stored[i] == f;
      assert StoredFrom(u.stored[i], arrivals[i]);
    }
  }

  /** The paths of the files an upload wrote. */
  function WrittenPaths(stored: seq<StoredFile>): set<string> {
    set f | f in stored :: StoredPath(f)
  }
}

=== FILE: wrappers.dfy ===
/** The Option datatype used throughout the model: `None` stands for JavaScript's
    `undefined` (an absent field, a `find` that matched nothing, a `NaN` parse). */
module Wrappers {

  datatype Option<+T> = None | Some(value: T) {

    /** The encapsulated value, or `default` when there is none. */
    function GetOr(default: T): T {
      match this
      case Some(v) => v
      case None => default
    }
  }
}
